=== FILE: README.md ===
# Trigger-condition admission rule of the blockchain supply-chain front end

The front end lets an operator set three *trigger conditions* — a minimum
quantity, a maximum temperature and a latest delivery date — and keeps them
in the browser's `localStorage`. Before it asks the remote service to mine a
block, `mineBlock` checks every pending transaction against those conditions
with `evaluateConditions` and refuses to mine at all if any transaction fails.
The pending-transactions list uses a second, stricter evaluator,
`doesTransactionMeetConditions`, to mark rows that do not meet the conditions.

This project models that rule in Dafny:

- `options.dfy` — `Option`, and `NumLe`, JavaScript's `<=` on numbers that
  may be NaN (`None`): any comparison with NaN is false.
- `js_number.dfy` — `parseInt(s, 10)` on unbounded integers: leading white
  space, optional sign, longest digit run, NaN when there are no digits.
- `js_date.dfy` — `new Date(s)` for the Date Time String Format of ECMAScript
  (date-only forms and UTC date-time forms) as a time value in milliseconds,
  with the calendar arithmetic of ECMAScript's `DayFromYear`/`MakeDate`.
- `conditions.dfy` — the threshold triple, the transaction record, and both
  evaluators.
- `condition_codec.dfy` — the JSON text `JSON.stringify` writes for the
  triple, and a reader for it.
- `condition_store.dfy` — loading the triple at start-up, editing one field,
  saving.
- `mining_gate.dfy` — the filter of failing transactions and the
  all-or-nothing mine decision.
- `scenarios.dfy` — worked examples on concrete values.

Thresholds are kept as the strings the form holds; a blank field is the empty
string, which is falsy in JavaScript. The remote mine call is the outcome
`MineRequested`; the alert that replaces it is `Refused`, which carries the
failing transactions the source computes (the source itself only uses their
count). The save's alert on a blank field is the outcome `FieldsMissing`.

A rejected save only raises an alert and returns no error value. The
delivery-date rule compares JavaScript time values, not calendar dates as
such; for the `YYYY-MM-DD` values a date input produces the two agree (see
`JsDate.DateInputOrder`).

The two evaluators differ on blank thresholds: `evaluateConditions` skips a
blank rule, `doesTransactionMeetConditions` parses the blank to NaN and
fails. So a transaction the gate lets through can be shown as not meeting the
conditions (`Conditions.EvaluatorsDisagreeOnBlank`); once all three
thresholds are filled in they agree (`Conditions.EvaluatorsAgreeWhenComplete`).

## Model

| member | source | states |
|---|---|---|
| JsNumber.ParseInt | src/blockchain/Blockchain.jsx:183-188 | `parseInt` is NaN exactly when the text after the leading white space does not start with a digit, or with a `+` or `-` followed by a digit (so `"abc5"`, `"- 5"` and the empty threshold are NaN) |
| JsNumber.ParseIntNoDigits | src/blockchain/Blockchain.jsx:183-188 | text without a single digit, such as a blank threshold or a word, parses to NaN |
| JsNumber.ParseIntReadsNumeral | src/blockchain/Blockchain.jsx:183-188 | any digit run, leading zeros included, with no sign, `+` or `-`, after white space and before a tail that does not continue it, reads as its value, negated after `-` |
| JsNumber.ParseIntReadsShowInt | src/blockchain/Blockchain.jsx:187-188 | `parseInt` reads back any integer written in decimal, after any leading white space and before any non-digit tail |
| JsDate.ParseFields | src/blockchain/Blockchain.jsx:191-192 | every date `new Date` accepts has its fields in the ranges the Date Time String Format admits (month 1 to 12, day 1 to 31 in any month, time of day in range), and the empty string is an Invalid Date |
| JsDate.ParseFieldsInverse | src/blockchain/Blockchain.jsx:191-192 | every string `new Date` accepts is exactly the written form of the date it returns: `YYYY`, `YYYY-MM` or `YYYY-MM-DD` followed by nothing, `THH:mmZ`, `THH:mm:ssZ` or `THH:mm:ss.sssZ`, with the left-out fields at their defaults; any other text is an Invalid Date |
| JsDate.ParseFieldsOfText | src/blockchain/Blockchain.jsx:191-192 | conversely, every in-format date written in any of the twelve shapes, with the fields that shape leaves out at their defaults, reads back as that same date, including a day past its month's end such as `2023-02-30`; with the row above, `new Date` accepts exactly these strings |
| JsDate.Normalize | src/blockchain/Blockchain.jsx:191-192 | a parsed day past the end of its month (such as `2023-02-30`) denotes the same instant as the matching day of the next month, a date of the calendar; calendar dates denote themselves |
| JsDate.TimeValueOrder | src/blockchain/Blockchain.jsx:191-192 | comparing two time values with `<=` is comparing the dates field by field, and distinct dates have distinct time values |
| JsDate.ParseFormatDate | src/blockchain/Blockchain.jsx:190-192 | a date input's `YYYY-MM-DD` value reads back as that day at midnight UTC |
| JsDate.ParseFormatIso | src/blockchain/Blockchain.jsx:236-237 | the `toISOString` form of a date reads back as that date and time |
| JsDate.DateInputOrder | src/blockchain/Blockchain.jsx:190-193 | the delivery-date comparison on two date-input values holds exactly when the first day is the same as or earlier than the second |
| Conditions.Evaluate | src/blockchain/Blockchain.jsx:181-195 | `evaluateConditions` holds iff every rule whose threshold is non-empty holds; all-blank thresholds admit every transaction; an unparsable quantity, temperature or date fails its rule whenever that threshold is set |
| Conditions.StrictMeets | src/blockchain/Blockchain.jsx:231-239 | `doesTransactionMeetConditions` holds iff all three comparisons hold, so it is false whenever any threshold is blank |
| Conditions.EvaluateAntitone | src/blockchain/Blockchain.jsx:181-195 | keeping every set threshold and setting more can only turn a pass into a failure |
| Conditions.StrictImpliesPermissive | src/blockchain/Blockchain.jsx:231-239 | a row the list marks as compliant is admitted by the mining gate's evaluator |
| Conditions.EvaluatorsAgreeWhenComplete | src/blockchain/Blockchain.jsx:231-239 | with all three thresholds set, the two evaluators agree |
| Conditions.EvaluatorsDisagreeOnBlank | src/blockchain/Blockchain.jsx:182-194 | with a blank threshold, every transaction `evaluateConditions` admits is flagged by `doesTransactionMeetConditions` |
| ConditionCodec.DecodeEncode | src/blockchain/Blockchain.jsx:92-95 | the JSON text written for a triple, with every character escaped as `JSON.stringify` does, reads back as the same triple |
| ConditionStore.Load | src/blockchain/Blockchain.jsx:33-42 | with no stored entry, or an empty one (which is falsy), the initial triple is all blank; with a non-empty entry it is the decoded entry |
| ConditionStore.UpdateCondition | src/blockchain/Blockchain.jsx:80-83 | editing one field sets that field to the typed value and leaves the other two unchanged |
| ConditionStore.SaveTriggerConditions | src/blockchain/Blockchain.jsx:86-101 | the store is written iff all three fields are non-empty; after a save the store loads back the saved triple and shows the success message; a rejected save changes nothing; no other key is touched |
| ConditionStore.SaveThenReload | src/blockchain/Blockchain.jsx:33-42 | a complete triple saved by one session is the triple the next session starts with |
| ConditionStore.FillingBlankOnlyBlocks | src/blockchain/Blockchain.jsx:80-83 | typing a value into a blank threshold field never admits a transaction that was failing |
| MiningGate.Blocking | src/blockchain/Blockchain.jsx:148-150 | the blocking list holds exactly the pending transactions that fail `evaluateConditions` |
| MiningGate.BlockingAppend | src/blockchain/Blockchain.jsx:148-150 | the filter keeps order: filtering a concatenation concatenates the filtered parts |
| MiningGate.BlockingOne | src/blockchain/Blockchain.jsx:148-150 | a single transaction is kept exactly when it fails |
| MiningGate.MineBlock | src/blockchain/Blockchain.jsx:146-157 | the remote mine call is issued iff every pending transaction passes; otherwise mining is refused with the non-empty list `Blocking` computes, the failing pending transactions in order; an empty pending list always mines |
| MiningGate.GateSplits | src/blockchain/Blockchain.jsx:148-157 | mining a list is allowed iff mining each of its two parts is, so deleting a pending transaction never makes the gate refuse |
| MiningGate.GateAntitone | src/blockchain/Blockchain.jsx:148-157 | setting more thresholds never lets through a pending list the gate refused |
| Scenarios.ShipmentWithinLimitsPasses | src/blockchain/Blockchain.jsx:181-195 | quantity 12, temperature 3 and a delivery date of 31 December 2023 pass the thresholds 10, 5 and 1 January 2024, each date as a date input writes it |
| Scenarios.ShortShipmentFails | src/blockchain/Blockchain.jsx:182-185 | quantity 8 fails the minimum quantity 10 |
| Scenarios.GateReportsTheFailure | src/blockchain/Blockchain.jsx:148-155 | with a passing and a failing transaction pending, mining is refused and only the failing one is reported |

## Left out

- The remote calls (`getBlockchain`, `getPendingTransactions`, `saveTransaction`, `deleteTransaction`, `clearBlockchain` and what `mineBlock` does after the gate): network I/O against a service that is not part of this model; the mine call is only the outcome `MineRequested`.
- The views, routing, modal state, `window.alert`, `console.error` and the success messages other than the save's: rendering and side effects with no rule to state.
- Locale date formatting (`toLocaleString`, `toLocaleDateString`): display only.
- Real `localStorage`: a `map<string, string>` stands in for it.
- src/App.jsx: it only composes components.
- ConditionCodec.Decode: reads only text of the exact shape `JSON.stringify` writes for the triple; other JSON text (extra white space, other member order, missing members, non-string values) that `JSON.parse` would accept gives `None`, so `ConditionStore.Load` fails on it where the component would start with that object. Only the save writes this key, so such text does not arise from the component itself.
- ConditionStore.Load: `None` stands for `JSON.parse` throwing during the component's first render; the crash itself is not modelled.
- JsNumber.ParseInt: returns the exact integer; JavaScript rounds values beyond 2^53 to the nearest double and turns numerals of more than about 309 digits into Infinity, so comparisons of such huge values can differ.
- Conditions.StrictMeets: `doesTransactionMeetConditions` calls `parseInt` without a radix, which reads a `0x`/`0X` prefix as hexadecimal; the model reads every string in decimal.
- JsDate.ParseDate: covers the Date Time String Format with a `Z` (UTC) time or no time. A date-time with a numeric offset or without a zone (local time, which depends on the machine's time zone), hour `24`, expanded six-digit years, and the engine-specific fallback formats are all read as an Invalid Date, whereas an engine may accept them. A day past the end of its month is read as the format admits it (01 to 31 in any month) and rolled into the next month by the day arithmetic; an engine that rejects such a date instead is not modelled.
- Transaction fields are strings; a field the service sends as a non-string is not modelled. `parseInt` would first apply ToString to it. `new Date` instead applies ToNumber to a non-string: a number is taken as a time value, `null` becomes 0 (1 January 1970, which passes every later delivery-date threshold), and an omitted field (undefined) becomes NaN, an Invalid Date.

=== FILE: condition_codec.dfy ===
/** The text `JSON.stringify` writes for a trigger-condition triple, and a
    reader for that text.

    `JSON.stringify({quantity, temperature, deliveryDate})` writes the three
    members in insertion order, with no white space, each value quoted as
    section 25.5.2.3 (QuoteJSONString) of ECMAScript 2024 prescribes:
    `"` and `\` get a backslash, the control characters backspace, tab,
    line feed, form feed and carriage return get their short escapes, and
    the other characters below U+0020 are written `\u00hh` in lower-case
    hexadecimal. */
module ConditionCodec {
  import opened Options
  import opened Conditions

  // ---------------------------------------------------------------------
  // Writing

  function HexDigit(d: nat): (c: char)
    requires d < 16
  {
    if d < 10 then (('0' as int) + d) as char else (('a' as int) + d - 10) as char
  }

  /** The JSON escape of one character inside a string literal. */
  function EscapeChar(c: char): (e: string)
    ensures |e| >= 1
  {
    if c == '"' then "\\\""
    else if c == '\\' then "\\\\"
    else if c == '\U{8}' then "\\b"
    else if c == '\t' then "\\t"
    else if c == '\n' then "\\n"
    else if c == '\U{C}' then "\\f"
    else if c == '\r' then "\\r"
    else if (c as int) < 0x20 then "\\u00" + [HexDigit((c as int) / 16), HexDigit((c as int) % 16)]
    else [c]
  }

  function EscapeBody(s: string): string {
    if |s| == 0 then "" else EscapeChar(s[0]) + EscapeBody(s[1..])
  }

  function Quote(s: string): string {
    "\"" + EscapeBody(s) + "\""
  }

  const QuantityKey := "{\"quantity\":"
  const TemperatureKey := ",\"temperature\":"
  const DeliveryDateKey := ",\"deliveryDate\":"

  /** `JSON.stringify(triggerConditions)`. */
  function Encode(c: TriggerConditions): string {
    QuantityKey + Quote(c.quantity) + TemperatureKey + Quote(c.temperature)
      + DeliveryDateKey + Quote(c.deliveryDate) + "}"
  }

  // ---------------------------------------------------------------------
  // Reading

  function HexValue(c: char): (r: Option<nat>)
    ensures r.Some? ==> r.value < 16
  {
    if '0' <= c <= '9' then Some((c as int) - ('0' as int))
    else if 'a' <= c <= 'f' then Some((c as int) - ('a' as int) + 10)
    else if 'A' <= c <= 'F' then Some((c as int) - ('A' as int) + 10)
    else None
  }

  /** The code unit of the four hexadecimal digits after `\u`. */
  function Hex4(s: string): (r: Option<nat>)
    requires |s| == 4
    ensures r.Some? ==> r.value < 0x10000
  {
    var a, b, c, d := HexValue(s[0]), HexValue(s[1]), HexValue(s[2]), HexValue(s[3]);
    if a.Some? && b.Some? && c.Some? && d.Some?
    then Some(((a.value * 16 + b.value) * 16 + c.value) * 16 + d.value)
    else None
  }

  /** The character a one-letter escape `\x` stands for. */
  function ShortEscape(x: char): Option<char> {
    if x == '"' then Some('"')
    else if x == '\\' then Some('\\')
    else if x == '/' then Some('/')
    else if x == 'b' then Some('\U{8}')
    else if x == 't' then Some('\t')
    else if x == 'n' then Some('\n')
    else if x == 'f' then Some('\U{C}')
    else if x == 'r' then Some('\r')
    else None
  }

  /** Reads the body of a JSON string literal up to its closing quote;
      returns the decoded text and what follows the quote. */
  function ReadBody(s: string): Option<(string, string)>
    decreases |s|
  {
    if |s| == 0 then None
    else if s[0] == '"' then Some(("", s[1..]))
    else if s[0] == '\\' then
      if |s| >= 2 && ShortEscape(s[1]).Some? then
        match ReadBody(s[2..])
        case None => None
        case Some((v, rest)) => Some(([ShortEscape(s[1]).value] + v, rest))
      else if |s| >= 6 && s[1] == 'u' && Hex4(s[2..6]).Some?
              && !(0xD800 <= Hex4(s[2..6]).value < 0xE000) then
        match ReadBody(s[6..])
        case None => None
        case Some((v, rest)) => Some(([Hex4(s[2..6]).value as char] + v, rest))
      else None
    else if (s[0] as int) < 0x20 then None
    else
      match ReadBody(s[1..])
      case None => None
      case Some((v, rest)) => Some(([s[0]] + v, rest))
  }

  /** Reads a JSON string literal at the start of `s`. */
  function ReadString(s: string): Option<(string, string)> {
    if |s| > 0 && s[0] == '"' then ReadBody(s[1..]) else None
  }

  /** Reads the text `key` at the start of `s`, then a string literal. */
  function ReadMember(key: string, s: string): Option<(string, string)> {
    if |key| <= |s| && s[..|key|] == key then ReadString(s[|key|..]) else None
  }

  /** The triple in text of the shape `Encode` writes; any other text is
      `None`. */
  function Decode(s: string): Option<TriggerConditions> {
    match ReadMember(QuantityKey, s)
    case None => None
    case Some((q, s1)) =>
      match ReadMember(TemperatureKey, s1)
      case None => None
      case Some((t, s2)) =>
        match ReadMember(DeliveryDateKey, s2)
        case None => None
        case Some((d, s3)) =>
          if s3 == "}" then Some(TriggerConditions(q, t, d)) else None
  }

  // ---------------------------------------------------------------------
  // Round trip

  lemma ReadEscapedChar(c: char, tail: string)
    ensures ReadBody(EscapeChar(c) + tail) ==
      (match ReadBody(tail)
       case None => None
       case Some((v, rest)) => Some(([c] + v, rest)))
  {
    var e := EscapeChar(c);
    var s := e + tail;
    if c == '"' || c == '\\' || c == '\U{8}' || c == '\t' || c == '\n' || c == '\U{C}' || c == '\r' {
      assert s[0] == '\\' && s[2..] == tail;
    } else if (c as int) < 0x20 {
      var h := s[2..6];
      assert h == ['0', '0', HexDigit((c as int) / 16), HexDigit((c as int) % 16)];
      assert Hex4(h) == Some(c as int);
      assert s[6..] == tail;
    } else {
      assert s[1..] == tail;
    }
  }

  lemma {:induction false} ReadEscapedBody(x: string, rest: string)
    ensures ReadBody(EscapeBody(x) + "\"" + rest) == Some((x, rest))
  {
    if |x| == 0 {
      assert EscapeBody(x) + "\"" + rest == "\"" + rest;
    } else {
      var tail := EscapeBody(x[1..]) + "\"" + rest;
      assert EscapeBody(x) + "\"" + rest == EscapeChar(x[0]) + tail;
      ReadEscapedChar(x[0], tail);
      ReadEscapedBody(x[1..], rest);
      assert [x[0]] + x[1..] == x;
    }
  }

  lemma ReadQuotedMember(key: string, x: string, rest: string)
    ensures ReadMember(key, key + Quote(x) + rest) == Some((x, rest))
  {
    var s := key + Quote(x) + rest;
    assert s[..|key|] == key;
    assert s[|key|..][1..] == EscapeBody(x) + "\"" + rest;
    ReadEscapedBody(x, rest);
  }

  /** What `JSON.stringify` writes for a triple reads back as that triple. */
  lemma DecodeEncode(c: TriggerConditions)
    ensures Decode(Encode(c)) == Some(c)
  {
    var s3 := "}";
    var s2 := DeliveryDateKey + Quote(c.deliveryDate) + s3;
    var s1 := TemperatureKey + Quote(c.temperature) + s2;
    assert Encode(c) == QuantityKey + Quote(c.quantity) + s1;
    ReadQuotedMember(QuantityKey, c.quantity, s1);
    ReadQuotedMember(TemperatureKey, c.temperature, s2);
    ReadQuotedMember(DeliveryDateKey, c.deliveryDate, s3);
  }
}

=== FILE: condition_store.dfy ===
/** The component's trigger-condition state: its initial load from the
    browser's key-value store, the edit of one field, and the save back.
    The store is a map from keys to strings, as `localStorage` is. */
module ConditionStore {
  import opened Options
  import opened Conditions
  import opened ConditionCodec

  const StorageKey := "triggerConditions"
  const SavedMessage := "Trigger conditions saved successfully."

  type Store = map<string, string>

  /** The part of the component's state the condition store touches. */
  datatype Session = Session(store: Store, conditions: TriggerConditions, message: string)

  datatype SaveOutcome = Saved | FieldsMissing

  /** The initial triple: the stored one if there is a non-empty entry, the
      all-blank triple otherwise. `None` is text `JSON.parse` would reject
      (or that this model does not read, see `Decode`). */
  function Load(store: Store): (r: Option<TriggerConditions>)
    ensures StorageKey !in store || store[StorageKey] == "" ==> r == Some(NoConditions)
    ensures StorageKey in store && store[StorageKey] != "" ==> r == Decode(store[StorageKey])
  {
    if StorageKey in store && store[StorageKey] != "" then Decode(store[StorageKey])
    else Some(NoConditions)
  }

  /** `handleTriggerConditionsChange` for the input named after rule `k`. */
  function UpdateCondition(c: TriggerConditions, k: Rule, value: string): (r: TriggerConditions)
    ensures Threshold(r, k) == value
    ensures forall j: Rule :: j != k ==> Threshold(r, j) == Threshold(c, j)
  {
    match k
    case Quantity => c.(quantity := value)
    case Temperature => c.(temperature := value)
    case DeliveryDate => c.(deliveryDate := value)
  }

  /** `saveTriggerConditions`: with all three fields filled in, the triple is
      written under `StorageKey` as JSON and the success message is shown;
      otherwise nothing changes (the user only sees an alert). */
  function SaveTriggerConditions(s: Session): (r: (Session, SaveOutcome))
    ensures r.1 == Saved <==> Complete(s.conditions)
    ensures r.1 == Saved ==> Load(r.0.store) == Some(s.conditions) && r.0.message == SavedMessage
    ensures r.1 == FieldsMissing ==> r.0 == s
    ensures r.0.conditions == s.conditions
    ensures r.0.store.Keys <= s.store.Keys + {StorageKey}
    ensures forall key :: key in s.store && key != StorageKey ==> key in r.0.store && r.0.store[key] == s.store[key]
  {
    var c := s.conditions;
    CompleteFields(c);
    if c.quantity != "" && c.temperature != "" && c.deliveryDate != "" then
      var text := Encode(c);
      DecodeEncode(c);
      assert text != "" by { assert text[0] == '{'; }
      var store := s.store[StorageKey := text];
      assert Load(store) == Some(c) by { assert store[StorageKey] == text; }
      (s.(store := store, message := SavedMessage), Saved)
    else
      (s, FieldsMissing)
  }

  /** Entering a value into a blank field only adds a rule: every transaction
      the new triple admits, the old one admitted. */
  lemma FillingBlankOnlyBlocks(tx: Transaction, c: TriggerConditions, k: Rule, value: string)
    requires !InForce(c, k)
    ensures Evaluate(tx, UpdateCondition(c, k, value)) ==> Evaluate(tx, c)
  {
    var c' := UpdateCondition(c, k, value);
    assert Tightens(c, c');
    EvaluateAntitone(tx, c, c');
  }

  /** The triple a session saved is the one the next session starts with. */
  lemma SaveThenReload(store: Store, c: TriggerConditions, message: string)
    requires Complete(c)
    ensures Load(SaveTriggerConditions(Session(store, c, message)).0.store) == Some(c)
  {
  }
}

=== FILE: conditions.dfy ===
/** The records the trigger-condition rules read, and the two evaluators
    `Blockchain.jsx` defines over them. */
module Conditions {
  import opened Options
  import opened JsNumber
  import opened JsDate

  /** The three thresholds as the form holds them: strings, where the empty
      string means the field was left blank. */
  datatype TriggerConditions = TriggerConditions(quantity: string, temperature: string, deliveryDate: string)

  const NoConditions := TriggerConditions("", "", "")

  /** A pending transaction as the remote service lists it. Only quantity,
      temperature and deliveryDate take part in the rules. */
  datatype Transaction = Transaction(
    id: Option<string>,
    sender: string,
    recipient: string,
    product: string,
    quantity: string,
    location: string,
    status: string,
    temperature: string,
    deliveryDate: string)

  /** The three rules, one per threshold field. */
  datatype Rule = Quantity | Temperature | DeliveryDate

  function Threshold(c: TriggerConditions, k: Rule): string {
    match k
    case Quantity => c.quantity
    case Temperature => c.temperature
    case DeliveryDate => c.deliveryDate
  }

  /** A threshold is in force when its field is truthy, i.e. non-empty. */
  predicate InForce(c: TriggerConditions, k: Rule) {
    Threshold(c, k) != ""
  }

  predicate Complete(c: TriggerConditions) {
    forall k: Rule :: InForce(c, k)
  }

  /** All three fields filled in, the test `saveTriggerConditions` makes. */
  lemma CompleteFields(c: TriggerConditions)
    ensures Complete(c) <==> c.quantity != "" && c.temperature != "" && c.deliveryDate != ""
  {
    if c.quantity != "" && c.temperature != "" && c.deliveryDate != "" {
      forall k: Rule
        ensures InForce(c, k)
      {
        match k
        case Quantity =>
        case Temperature =>
        case DeliveryDate =>
      }
    } else {
      assert !InForce(c, Quantity) || !InForce(c, Temperature) || !InForce(c, DeliveryDate);
    }
  }

  /** One comparison of a transaction field with its threshold, where an
      unparsable side (NaN, Invalid Date) makes the comparison false:
      quantity at least the minimum, temperature at most the maximum,
      delivery no later than the latest date. */
  predicate Compare(k: Rule, tx: Transaction, c: TriggerConditions) {
    match k
    case Quantity => NumLe(ParseInt(c.quantity), ParseInt(tx.quantity))
    case Temperature => NumLe(ParseInt(tx.temperature), ParseInt(c.temperature))
    case DeliveryDate => NumLe(ParseDate(tx.deliveryDate), ParseDate(c.deliveryDate))
  }

  /** `evaluateConditions`: each rule whose threshold is blank is skipped,
      the others must hold. */
  function Evaluate(tx: Transaction, c: TriggerConditions): (ok: bool)
    ensures ok <==> forall k: Rule :: InForce(c, k) ==> Compare(k, tx, c)
    ensures c == NoConditions ==> ok
    ensures InForce(c, Quantity) && ParseInt(tx.quantity) == None ==> !ok
    ensures InForce(c, Temperature) && ParseInt(tx.temperature) == None ==> !ok
    ensures InForce(c, DeliveryDate) && ParseDate(tx.deliveryDate) == None ==> !ok
  {
    var quantityOk := if c.quantity != "" then Compare(Quantity, tx, c) else true;
    var temperatureOk := if c.temperature != "" then Compare(Temperature, tx, c) else true;
    var deliveryOk := if c.deliveryDate != "" then Compare(DeliveryDate, tx, c) else true;
    quantityOk && temperatureOk && deliveryOk
  }

  /** `doesTransactionMeetConditions`: all three comparisons, blank or not.
      A blank threshold parses to NaN or an Invalid Date, so its comparison
      and the whole result are false. */
  function StrictMeets(tx: Transaction, c: TriggerConditions): (ok: bool)
    ensures ok <==> forall k: Rule :: Compare(k, tx, c)
    ensures ok ==> Complete(c)
  {
    BlankThresholdsFail(tx, c);
    Compare(Quantity, tx, c) && Compare(Temperature, tx, c) && Compare(DeliveryDate, tx, c)
  }

  /** A blank threshold reads as NaN or an Invalid Date, so its comparison
      fails whatever the transaction holds. */
  lemma BlankThresholdsFail(tx: Transaction, c: TriggerConditions)
    ensures forall k: Rule :: !InForce(c, k) ==> !Compare(k, tx, c)
  {
    forall k: Rule | !InForce(c, k)
      ensures !Compare(k, tx, c)
    {
      match k
      case Quantity =>
        assert c.quantity == "" && ParseInt(c.quantity) == None;
      case Temperature =>
        assert c.temperature == "" && ParseInt(c.temperature) == None;
      case DeliveryDate =>
        assert c.deliveryDate == "" && ParseDate(c.deliveryDate) == None;
    }
  }

  /** `c'` keeps every threshold `c` has in force, and may add more. */
  predicate Tightens(c: TriggerConditions, c': TriggerConditions) {
    forall k: Rule :: InForce(c, k) ==> Threshold(c', k) == Threshold(c, k)
  }

  /** Filling in a blank threshold can only turn a pass into a failure. */
  lemma EvaluateAntitone(tx: Transaction, c: TriggerConditions, c': TriggerConditions)
    requires Tightens(c, c')
    ensures Evaluate(tx, c') ==> Evaluate(tx, c)
  {
    if Evaluate(tx, c') {
      forall k: Rule | InForce(c, k)
        ensures Compare(k, tx, c)
      {
        assert InForce(c', k) && Threshold(c', k) == Threshold(c, k);
      }
    }
  }

  /** A row the list view marks as compliant is admitted by the mining gate. */
  lemma StrictImpliesPermissive(tx: Transaction, c: TriggerConditions)
    ensures StrictMeets(tx, c) ==> Evaluate(tx, c)
  {
  }

  /** With every threshold filled in, the two evaluators agree. */
  lemma EvaluatorsAgreeWhenComplete(tx: Transaction, c: TriggerConditions)
    requires Complete(c)
    ensures StrictMeets(tx, c) == Evaluate(tx, c)
  {
  }

  /** With a threshold left blank they disagree on every transaction that
      passes the others: the mining gate admits it, the list view flags it. */
  lemma EvaluatorsDisagreeOnBlank(tx: Transaction, c: TriggerConditions, k: Rule)
    requires !InForce(c, k)
    requires Evaluate(tx, c)
    ensures !StrictMeets(tx, c)
  {
  }
}

=== FILE: js_date.dfy ===
/** JavaScript's `new Date(string)` followed by a numeric comparison, for
    strings in the Date Time String Format of section 21.4.1.32 of
    ECMAScript 2024: a date `YYYY`, `YYYY-MM` or `YYYY-MM-DD`, optionally
    followed by a UTC time `THH:mmZ`, `THH:mm:ssZ` or `THH:mm:ss.sssZ`.
    A date without a time is midnight UTC. The result is the time value in
    milliseconds since 1 January 1970 UTC, or `None` for an Invalid Date,
    whose time value is NaN. */
module JsDate {
  import opened Options
  import opened JsNumber

  const MsPerDay: int := 86400000

  predicate IsLeapYear(y: int) {
    y % 4 == 0 && (y % 100 != 0 || y % 400 == 0)
  }

  function DaysInYear(y: int): int {
    if IsLeapYear(y) then 366 else 365
  }

  function DaysInMonth(y: int, m: int): (n: int)
    requires 1 <= m <= 12
    ensures 28 <= n <= 31
  {
    if m == 2 then (if IsLeapYear(y) then 29 else 28)
    else if m == 4 || m == 6 || m == 9 || m == 11 then 30
    else 31
  }

  /** Days in the months of year `y` that precede month `m`. */
  function DaysBeforeMonth(y: int, m: int): nat
    requires 1 <= m <= 12
  {
    if m == 1 then 0 else DaysBeforeMonth(y, m - 1) + DaysInMonth(y, m - 1)
  }

  /** The day number of 1 January of year `y`, counting 1 January 1970 as
      day 0 (DayFromYear, section 21.4.1.6 of ECMAScript 2024). */
  function DayFromYear(y: int): int {
    365 * (y - 1970) + (y - 1969) / 4 - (y - 1901) / 100 + (y - 1601) / 400
  }

  /** A broken-down UTC date and time. */
  datatype DateTime = DateTime(year: int, month: int, day: int,
                               hour: int, minute: int, second: int, millisecond: int)

  /** The field ranges the Date Time String Format admits (hour 24 aside):
      the day may be anything from 1 to 31 whatever the month. */
  predicate InFormat(t: DateTime) {
    && 0 <= t.year <= 9999
    && 1 <= t.month <= 12
    && 1 <= t.day <= 31
    && 0 <= t.hour < 24
    && 0 <= t.minute < 60
    && 0 <= t.second < 60
    && 0 <= t.millisecond < 1000
  }

  /** A date of the calendar: in the format, and the day within its month. */
  predicate Valid(t: DateTime) {
    InFormat(t) && t.day <= DaysInMonth(t.year, t.month)
  }

  /** The day count of MakeDay (section 21.4.1.28); a day past the end of
      its month runs on into the next month. */
  function DayNumber(t: DateTime): int
    requires InFormat(t)
  {
    DayFromYear(t.year) + DaysBeforeMonth(t.year, t.month) + t.day - 1
  }

  function MsInDay(t: DateTime): (ms: int)
    requires InFormat(t)
    ensures 0 <= ms < MsPerDay
  {
    ((t.hour * 60 + t.minute) * 60 + t.second) * 1000 + t.millisecond
  }

  /** Milliseconds since 1 January 1970 00:00 UTC (MakeDate, section 21.4.1.29). */
  function TimeValue(t: DateTime): int
    requires InFormat(t)
  {
    DayNumber(t) * MsPerDay + MsInDay(t)
  }

  /** Strict chronological order read field by field, most significant first. */
  predicate Earlier(a: DateTime, b: DateTime) {
    || a.year < b.year
    || (a.year == b.year && a.month < b.month)
    || (a.year == b.year && a.month == b.month && a.day < b.day)
    || (a.year == b.year && a.month == b.month && a.day == b.day && a.hour < b.hour)
    || (a.year == b.year && a.month == b.month && a.day == b.day && a.hour == b.hour
        && a.minute < b.minute)
    || (a.year == b.year && a.month == b.month && a.day == b.day && a.hour == b.hour
        && a.minute == b.minute && a.second < b.second)
    || (a.year == b.year && a.month == b.month && a.day == b.day && a.hour == b.hour
        && a.minute == b.minute && a.second == b.second && a.millisecond < b.millisecond)
  }

  // ---------------------------------------------------------------------
  // Parsing

  /** The `count` decimal digits of `s` starting at `from`, if they are all digits. */
  function Field(s: string, from: nat, count: nat): (r: Option<nat>)
    ensures r.Some? ==> from + count <= |s| && AllDigits(s[from..from + count])
  {
    if from + count <= |s| && AllDigits(s[from..from + count])
    then Some(DigitsValue(s[from..from + count]))
    else None
  }

  /** Year, month and day of a date-only string `YYYY`, `YYYY-MM` or
      `YYYY-MM-DD`; an absent month or day is 1. */
  function ParseDatePart(d: string): Option<(int, int, int)> {
    var y := Field(d, 0, 4);
    var m := if |d| >= 7 then Field(d, 5, 2) else Some(1);
    var dd := if |d| == 10 then Field(d, 8, 2) else Some(1);
    if (|d| == 4 || (|d| == 7 && d[4] == '-') || (|d| == 10 && d[4] == '-' && d[7] == '-'))
       && y.Some? && m.Some? && dd.Some?
    then Some((y.value, m.value, dd.value))
    else None
  }

  /** Hour, minute, second and millisecond of a UTC time suffix `THH:mmZ`,
      `THH:mm:ssZ` or `THH:mm:ss.sssZ`; the empty suffix is midnight. */
  function ParseTimePart(t: string): Option<(int, int, int, int)> {
    if |t| == 0 then Some((0, 0, 0, 0))
    else
      var h := Field(t, 1, 2);
      var mi := Field(t, 4, 2);
      var sec := if |t| >= 10 then Field(t, 7, 2) else Some(0);
      var ms := if |t| == 14 then Field(t, 10, 3) else Some(0);
      if (|t| == 7 || (|t| == 10 && t[6] == ':') || (|t| == 14 && t[6] == ':' && t[9] == '.'))
         && t[0] == 'T' && t[3] == ':' && t[|t| - 1] == 'Z'
         && h.Some? && mi.Some? && sec.Some? && ms.Some?
      then Some((h.value, mi.value, sec.value, ms.value))
      else None
  }

  /** Where the date part of `s` ends: after the day, after the month, or
      after the year. */
  function DatePartLength(s: string): nat {
    if |s| >= 8 && s[7] == '-' then 10 else if |s| >= 5 && s[4] == '-' then 7 else 4
  }

  /** The broken-down date and time `new Date(s)` denotes, if any. */
  function ParseFields(s: string): (r: Option<DateTime>)
    ensures r.Some? ==> InFormat(r.value)
    ensures |s| == 0 ==> r == None
  {
    var k := DatePartLength(s);
    if k > |s| then None
    else
      var d := ParseDatePart(s[..k]);
      var t := ParseTimePart(s[k..]);
      if d.None? || t.None? then None
      else
        var dt := DateTime(d.value.0, d.value.1, d.value.2,
                           t.value.0, t.value.1, t.value.2, t.value.3);
        if InFormat(dt) then Some(dt) else None
  }

  /** The time value of `new Date(s)`; `None` is an Invalid Date. */
  function ParseDate(s: string): (r: Option<int>)
    ensures |s| == 0 ==> r == None
  {
    match ParseFields(s)
    case None => None
    case Some(dt) => Some(TimeValue(dt))
  }

  // ---------------------------------------------------------------------
  // Formatting: the strings a date input and `toISOString` produce

  /** `v` in exactly `width` decimal digits, with leading zeros. */
  function Pad(v: nat, width: nat): (r: string)
    ensures |r| == width && AllDigits(r)
  {
    if width == 0 then "" else Pad(v / 10, width - 1) + [DigitChar(v % 10)]
  }

  function Pow10(n: nat): nat {
    if n == 0 then 1 else 10 * Pow10(n - 1)
  }

  /** The `YYYY-MM-DD` value of an HTML date input. */
  function FormatDate(t: DateTime): (s: string)
    requires Valid(t)
    ensures |s| == 10
  {
    Pad(t.year, 4) + "-" + Pad(t.month, 2) + "-" + Pad(t.day, 2)
  }

  /** The `YYYY-MM-DDTHH:mm:ss.sssZ` form of `Date.prototype.toISOString`. */
  function FormatIso(t: DateTime): (s: string)
    requires Valid(t)
    ensures |s| == 24
  {
    FormatDate(t) + "T" + Pad(t.hour, 2) + ":" + Pad(t.minute, 2) + ":"
      + Pad(t.second, 2) + "." + Pad(t.millisecond, 3) + "Z"
  }

  predicate IsMidnight(t: DateTime) {
    t.hour == 0 && t.minute == 0 && t.second == 0 && t.millisecond == 0
  }

  // ---------------------------------------------------------------------
  // Chronological order of time values

  /** Consecutive years start exactly one year's length apart. */
  lemma DayFromYearStep(y: int)
    ensures DayFromYear(y + 1) == DayFromYear(y) + DaysInYear(y)
  {
    LeapCountStep4(y);
    LeapCountStep100(y);
    LeapCountStep400(y);
    LeapDivisibility(y);
    assert DayFromYear(y + 1) == DayFromYear(y) + 365 + (if y % 4 == 0 then 1 else 0)
      - (if y % 100 == 0 then 1 else 0) + (if y % 400 == 0 then 1 else 0);
  }

  lemma LeapDivisibility(y: int)
    ensures y % 400 == 0 ==> y % 100 == 0
    ensures y % 100 == 0 ==> y % 4 == 0
  {
    if y % 400 == 0 {
      CenturyOfQuadCentury(y / 400);
    }
    if y % 100 == 0 {
      QuadOfCentury(y / 100);
    }
  }

  lemma CenturyOfQuadCentury(q: int)
    ensures (400 * q) % 100 == 0
  {
    assert 400 * q == 100 * (4 * q);
  }

  lemma QuadOfCentury(q: int)
    ensures (100 * q) % 4 == 0
  {
    assert 100 * q == 4 * (25 * q);
  }

  lemma LeapCountStep4(y: int)
    ensures (y - 1968) / 4 == (y - 1969) / 4 + (if y % 4 == 0 then 1 else 0)
  {
    var p, r := y / 4, y % 4;
    assert y == 4 * p + r;
    assert (y - 1968) / 4 == p - 492;
    assert (y - 1969) / 4 == (if r == 0 then p - 493 else p - 492);
  }

  lemma LeapCountStep100(y: int)
    ensures (y - 1900) / 100 == (y - 1901) / 100 + (if y % 100 == 0 then 1 else 0)
  {
    var p, r := y / 100, y % 100;
    assert y == 100 * p + r;
    assert (y - 1900) / 100 == p - 19;
    assert (y - 1901) / 100 == (if r == 0 then p - 20 else p - 19);
  }

  lemma LeapCountStep400(y: int)
    ensures (y - 1600) / 400 == (y - 1601) / 400 + (if y % 400 == 0 then 1 else 0)
  {
    var p, r := y / 400, y % 400;
    assert y == 400 * p + r;
    assert (y - 1600) / 400 == p - 4;
    assert (y - 1601) / 400 == (if r == 0 then p - 5 else p - 4);
  }

  lemma {:induction false} DayFromYearGrows(y1: int, y2: int)
    requires y1 < y2
    ensures DayFromYear(y1) + DaysInYear(y1) <= DayFromYear(y2)
    decreases y2 - y1
  {
    DayFromYearStep(y1);
    if y1 + 1 < y2 {
      DayFromYearGrows(y1 + 1, y2);
    }
  }

  lemma {:induction false} DaysBeforeMonthGrows(y: int, m1: int, m2: int)
    requires 1 <= m1 < m2 <= 12
    ensures DaysBeforeMonth(y, m1) + DaysInMonth(y, m1) <= DaysBeforeMonth(y, m2)
    decreases m2 - m1
  {
    if m1 + 1 < m2 {
      DaysBeforeMonthGrows(y, m1 + 1, m2);
    }
  }

  /** The months of a year fit inside it. */
  lemma MonthsFitInYear(y: int, m: int)
    requires 1 <= m <= 12
    ensures DaysBeforeMonth(y, m) + DaysInMonth(y, m) <= DaysInYear(y)
  {
    if m < 12 {
      DaysBeforeMonthGrows(y, m, 12);
    }
  }

  lemma EarlierDayNumber(a: DateTime, b: DateTime)
    requires Valid(a) && Valid(b)
    requires a.year < b.year || (a.year == b.year && a.month < b.month)
             || (a.year == b.year && a.month == b.month && a.day < b.day)
    ensures DayNumber(a) < DayNumber(b)
  {
    if a.year < b.year {
      MonthsFitInYear(a.year, a.month);
      DayFromYearGrows(a.year, b.year);
    } else if a.month < b.month {
      DaysBeforeMonthGrows(a.year, a.month, b.month);
    }
  }

  lemma EarlierTimeValue(a: DateTime, b: DateTime)
    requires Valid(a) && Valid(b) && Earlier(a, b)
    ensures TimeValue(a) < TimeValue(b)
  {
    if a.year < b.year || (a.year == b.year && a.month < b.month)
       || (a.year == b.year && a.month == b.month && a.day < b.day) {
      EarlierDayNumber(a, b);
    }
  }

  /** Comparing two time values is comparing the dates field by field:
      `<=` holds exactly when the first is the same instant or earlier,
      and distinct dates never share a time value. */
  lemma TimeValueOrder(a: DateTime, b: DateTime)
    requires Valid(a) && Valid(b)
    ensures TimeValue(a) <= TimeValue(b) <==> a == b || Earlier(a, b)
    ensures TimeValue(a) == TimeValue(b) <==> a == b
  {
    if Earlier(a, b) {
      EarlierTimeValue(a, b);
    } else if a != b {
      assert Earlier(b, a);
      EarlierTimeValue(b, a);
    }
  }

  /** The calendar date a parsed date denotes. A day past the end of its
      month (the format admits `2023-02-30`) is that many days into the next
      month, at the same instant; December has 31 days, so the year never
      changes. Calendar dates are left alone. */
  function Normalize(t: DateTime): (u: DateTime)
    requires InFormat(t)
    ensures Valid(u) && TimeValue(u) == TimeValue(t)
    ensures Valid(t) ==> u == t
    ensures !Valid(t) ==> u.year == t.year && u.month == t.month + 1
                          && u.day == t.day - DaysInMonth(t.year, t.month)
  {
    var n := DaysInMonth(t.year, t.month);
    if t.day <= n then t
    else
      assert t.month < 12;
      t.(month := t.month + 1, day := t.day - n)
  }

  // ---------------------------------------------------------------------
  // Parsing what is formatted

  lemma {:induction false} DigitsValueOfPad(v: nat, width: nat)
    requires v < Pow10(width)
    ensures DigitsValue(Pad(v, width)) == v
  {
    if width > 0 {
      var r := Pad(v, width);
      assert r[..|r| - 1] == Pad(v / 10, width - 1);
      assert v / 10 < Pow10(width - 1);
      DigitsValueOfPad(v / 10, width - 1);
    }
  }

  lemma FieldOfPad(s: string, from: nat, v: nat, width: nat)
    requires v < Pow10(width)
    requires from + width <= |s| && s[from..from + width] == Pad(v, width)
    ensures Field(s, from, width) == Some(v)
  {
    DigitsValueOfPad(v, width);
  }

  lemma ParseDatePartOfFormat(t: DateTime)
    requires Valid(t)
    ensures ParseDatePart(FormatDate(t)) == Some((t.year, t.month, t.day))
  {
    var d := FormatDate(t);
    assert Pow10(4) == 10000 && Pow10(2) == 100;
    FieldOfPad(d, 0, t.year, 4);
    FieldOfPad(d, 5, t.month, 2);
    FieldOfPad(d, 8, t.day, 2);
  }

  /** A date input's value reads back as that day at midnight UTC. */
  lemma ParseFormatDate(t: DateTime)
    requires Valid(t) && IsMidnight(t)
    ensures ParseFields(FormatDate(t)) == Some(t)
  {
    var s := FormatDate(t);
    assert DatePartLength(s) == 10;
    assert s[..10] == s && s[10..] == "";
    ParseDatePartOfFormat(t);
  }

  lemma ParseTimePartOfIso(t: DateTime)
    requires Valid(t)
    ensures ParseTimePart(FormatIso(t)[10..]) == Some((t.hour, t.minute, t.second, t.millisecond))
  {
    var u := FormatIso(t)[10..];
    assert u == "T" + Pad(t.hour, 2) + ":" + Pad(t.minute, 2) + ":"
      + Pad(t.second, 2) + "." + Pad(t.millisecond, 3) + "Z";
    assert Pow10(3) == 1000 && Pow10(2) == 100;
    FieldOfPad(u, 1, t.hour, 2);
    FieldOfPad(u, 4, t.minute, 2);
    FieldOfPad(u, 7, t.second, 2);
    FieldOfPad(u, 10, t.millisecond, 3);
  }

  /** What `toISOString` writes, `new Date` reads back. */
  lemma ParseFormatIso(t: DateTime)
    requires Valid(t)
    ensures ParseFields(FormatIso(t)) == Some(t)
  {
    var s := FormatIso(t);
    assert s[..10] == FormatDate(t);
    assert DatePartLength(s) == 10;
    ParseDatePartOfFormat(t);
    ParseTimePartOfIso(t);
  }

  // ---------------------------------------------------------------------
  // Formatting what is parsed

  /** The date part at length 4, 7 or 10: `YYYY`, `YYYY-MM`, `YYYY-MM-DD`. */
  function DatePartText(y: nat, m: nat, d: nat, k: nat): string {
    if k == 4 then Pad(y, 4)
    else if k == 7 then Pad(y, 4) + "-" + Pad(m, 2)
    else Pad(y, 4) + "-" + Pad(m, 2) + "-" + Pad(d, 2)
  }

  /** The time part at length 0, 7, 10 or 14: nothing, `THH:mmZ`,
      `THH:mm:ssZ`, `THH:mm:ss.sssZ`. */
  function TimePartText(h: nat, mi: nat, sec: nat, ms: nat, n: nat): string {
    if n == 0 then ""
    else if n == 7 then "T" + Pad(h, 2) + ":" + Pad(mi, 2) + "Z"
    else if n == 10 then "T" + Pad(h, 2) + ":" + Pad(mi, 2) + ":" + Pad(sec, 2) + "Z"
    else "T" + Pad(h, 2) + ":" + Pad(mi, 2) + ":" + Pad(sec, 2) + "." + Pad(ms, 3) + "Z"
  }

  /** A run of digits is the padded numeral of its own value. */
  lemma {:induction false} PadOfDigits(ds: string)
    requires AllDigits(ds)
    ensures Pad(DigitsValue(ds), |ds|) == ds
  {
    if |ds| > 0 {
      var p := ds[..|ds| - 1];
      var c := ds[|ds| - 1];
      var v := DigitsValue(ds);
      assert v / 10 == DigitsValue(p) && v % 10 == DigitValue(c);
      PadOfDigits(p);
      assert DigitChar(DigitValue(c)) == c;
      assert ds == p + [c];
    }
  }

  lemma FieldText(s: string, from: nat, count: nat)
    requires Field(s, from, count).Some?
    ensures s[from..from + count] == Pad(Field(s, from, count).value, count)
  {
    var ds := s[from..from + count];
    PadOfDigits(ds);
  }

  /** Splits `s` into its first `i` characters and the rest. */
  lemma SplitAt(s: string, i: nat)
    requires i <= |s|
    ensures s == s[..i] + s[i..]
  {
  }

  /** Every date part `ParseDatePart` accepts is the written form of the
      fields it returns, and a missing month or day is 1. */
  lemma DatePartInverse(d: string)
    requires ParseDatePart(d).Some?
    ensures var (y, m, dd) := ParseDatePart(d).value;
            && y >= 0 && m >= 0 && dd >= 0
            && d == DatePartText(y, m, dd, |d|)
            && (|d| < 7 ==> m == 1) && (|d| < 10 ==> dd == 1)
  {
    FieldText(d, 0, 4);
    if |d| == 4 {
      assert d == d[0..4];
    } else if |d| == 7 {
      FieldText(d, 5, 2);
      GlueMonth(d);
    } else {
      FieldText(d, 5, 2);
      FieldText(d, 8, 2);
      GlueDay(d);
    }
  }

  lemma GlueMonth(d: string)
    requires |d| == 7 && d[4] == '-'
    ensures d == d[0..4] + "-" + d[5..7]
  {
  }

  lemma GlueDay(d: string)
    requires |d| == 10 && d[4] == '-' && d[7] == '-'
    ensures d == d[0..4] + "-" + d[5..7] + "-" + d[8..10]
  {
  }

  /** Every time part `ParseTimePart` accepts is the written form of the
      fields it returns, and the fields it leaves out are 0. */
  lemma TimePartInverse(u: string)
    requires ParseTimePart(u).Some?
    ensures var (h, mi, sec, ms) := ParseTimePart(u).value;
            && h >= 0 && mi >= 0 && sec >= 0 && ms >= 0
            && u == TimePartText(h, mi, sec, ms, |u|)
            && (|u| == 0 ==> h == 0 && mi == 0)
            && (|u| < 10 ==> sec == 0) && (|u| < 14 ==> ms == 0)
  {
    if |u| > 0 {
      FieldText(u, 1, 2);
      FieldText(u, 4, 2);
    }
    if |u| == 7 {
      GlueMinutes(u);
    } else if |u| == 10 {
      FieldText(u, 7, 2);
      GlueSeconds(u);
    } else if |u| == 14 {
      FieldText(u, 7, 2);
      FieldText(u, 10, 3);
      GlueMilliseconds(u);
    }
  }

  lemma GlueMinutes(u: string)
    requires |u| == 7 && u[0] == 'T' && u[3] == ':' && u[6] == 'Z'
    ensures u == "T" + u[1..3] + ":" + u[4..6] + "Z"
  {
  }

  lemma GlueSeconds(u: string)
    requires |u| == 10 && u[0] == 'T' && u[3] == ':' && u[6] == ':' && u[9] == 'Z'
    ensures u == "T" + u[1..3] + ":" + u[4..6] + ":" + u[7..9] + "Z"
  {
  }

  lemma GlueMilliseconds(u: string)
    requires |u| == 14 && u[0] == 'T' && u[3] == ':' && u[6] == ':' && u[9] == '.' && u[13] == 'Z'
    ensures u == "T" + u[1..3] + ":" + u[4..6] + ":" + u[7..9] + "." + u[10..13] + "Z"
  {
  }

  /** What `new Date` accepts is exactly what is written for the date it
      returns: a date part of length 4, 7 or 10 followed by a time part of
      length 0, 7, 10 or 14, with the fields a shorter form leaves out at
      their defaults. Any other text is an Invalid Date. `ParseFieldsOfText`
      is the converse. */
  lemma ParseFieldsInverse(s: string)
    requires ParseFields(s).Some?
    ensures var t := ParseFields(s).value; var k := DatePartLength(s);
            && k <= |s|
            && s == DatePartText(t.year, t.month, t.day, k)
                    + TimePartText(t.hour, t.minute, t.second, t.millisecond, |s| - k)
            && (k < 7 ==> t.month == 1) && (k < 10 ==> t.day == 1)
            && (|s| == k ==> IsMidnight(t))
            && (|s| - k < 10 ==> t.second == 0) && (|s| - k < 14 ==> t.millisecond == 0)
  {
    var k := DatePartLength(s);
    DatePartInverse(s[..k]);
    TimePartInverse(s[k..]);
    SplitAt(s, k);
  }

  /** `t` written with a date part of length `k` and a time part of length
      `n` loses nothing: the fields the shorter forms leave out are already
      at their defaults. */
  predicate WrittenWhole(t: DateTime, k: nat, n: nat) {
    && (k == 4 || k == 7 || k == 10)
    && (n == 0 || n == 7 || n == 10 || n == 14)
    && (k < 7 ==> t.month == 1) && (k < 10 ==> t.day == 1)
    && (n == 0 ==> IsMidnight(t))
    && (n < 10 ==> t.second == 0) && (n < 14 ==> t.millisecond == 0)
  }

  /** Every written form of a date in the format reads back as that date,
      whether or not its day lies within its month. With
      `ParseFieldsInverse` this pins down exactly which strings `new Date`
      accepts. */
  lemma ParseFieldsOfText(t: DateTime, k: nat, n: nat)
    requires InFormat(t) && WrittenWhole(t, k, n)
    ensures ParseFields(DatePartText(t.year, t.month, t.day, k)
                        + TimePartText(t.hour, t.minute, t.second, t.millisecond, n)) == Some(t)
  {
    var d := DatePartText(t.year, t.month, t.day, k);
    var u := TimePartText(t.hour, t.minute, t.second, t.millisecond, n);
    DatePartOfText(t.year, t.month, t.day, k);
    TimePartOfText(t.hour, t.minute, t.second, t.millisecond, n);
    DatePartEnds(t.year, t.month, t.day, k, u);
    assert (d + u)[..k] == d && (d + u)[k..] == u;
  }

  /** A date part written to length 4, 7 or 10 reads back its year, and its
      month and day where they were written; the rest default to 1. */
  lemma DatePartOfText(y: nat, m: nat, d: nat, k: nat)
    requires y < 10000 && m < 100 && d < 100 && (k == 4 || k == 7 || k == 10)
    ensures ParseDatePart(DatePartText(y, m, d, k))
            == Some((y, if k >= 7 then m else 1, if k == 10 then d else 1))
  {
    assert Pow10(4) == 10000 && Pow10(2) == 100;
    if k == 4 {
      FieldOfPad(DatePartText(y, m, d, k), 0, y, 4);
    } else if k == 7 {
      MonthTextFields(y, m);
    } else {
      DayTextFields(y, m, d);
    }
  }

  lemma MonthTextFields(y: nat, m: nat)
    requires y < Pow10(4) && m < Pow10(2)
    ensures var s := DatePartText(y, m, 1, 7);
            Field(s, 0, 4) == Some(y) && Field(s, 5, 2) == Some(m) && s[4] == '-'
  {
    var s := DatePartText(y, m, 1, 7);
    FieldOfPad(s, 0, y, 4);
    FieldOfPad(s, 5, m, 2);
  }

  lemma DayTextFields(y: nat, m: nat, d: nat)
    requires y < Pow10(4) && m < Pow10(2) && d < Pow10(2)
    ensures var s := DatePartText(y, m, d, 10);
            && Field(s, 0, 4) == Some(y) && Field(s, 5, 2) == Some(m) && Field(s, 8, 2) == Some(d)
            && s[4] == '-' && s[7] == '-'
  {
    var s := DatePartText(y, m, d, 10);
    FieldOfPad(s, 0, y, 4);
    FieldOfPad(s, 5, m, 2);
    FieldOfPad(s, 8, d, 2);
  }

  /** A time part written to length 0, 7, 10 or 14 reads back the fields it
      holds; the rest default to 0. */
  lemma TimePartOfText(h: nat, mi: nat, sec: nat, ms: nat, n: nat)
    requires h < 100 && mi < 100 && sec < 100 && ms < 1000
    requires n == 0 || n == 7 || n == 10 || n == 14
    ensures ParseTimePart(TimePartText(h, mi, sec, ms, n))
            == Some((if n > 0 then h else 0, if n > 0 then mi else 0,
                     if n >= 10 then sec else 0, if n == 14 then ms else 0))
  {
    assert Pow10(3) == 1000 && Pow10(2) == 100;
    if n == 7 {
      MinuteTextFields(h, mi);
    } else if n == 10 {
      SecondTextFields(h, mi, sec);
    } else if n == 14 {
      MillisecondTextFields(h, mi, sec, ms);
    }
  }

  lemma MinuteTextFields(h: nat, mi: nat)
    requires h < Pow10(2) && mi < Pow10(2)
    ensures var u := TimePartText(h, mi, 0, 0, 7);
            && Field(u, 1, 2) == Some(h) && Field(u, 4, 2) == Some(mi)
            && u[0] == 'T' && u[3] == ':' && u[6] == 'Z'
  {
    var u := TimePartText(h, mi, 0, 0, 7);
    FieldOfPad(u, 1, h, 2);
    FieldOfPad(u, 4, mi, 2);
  }

  lemma SecondTextFields(h: nat, mi: nat, sec: nat)
    requires h < Pow10(2) && mi < Pow10(2) && sec < Pow10(2)
    ensures var u := TimePartText(h, mi, sec, 0, 10);
            && Field(u, 1, 2) == Some(h) && Field(u, 4, 2) == Some(mi) && Field(u, 7, 2) == Some(sec)
            && u[0] == 'T' && u[3] == ':' && u[6] == ':' && u[9] == 'Z'
  {
    var u := TimePartText(h, mi, sec, 0, 10);
    FieldOfPad(u, 1, h, 2);
    FieldOfPad(u, 4, mi, 2);
    FieldOfPad(u, 7, sec, 2);
  }

  lemma MillisecondTextFields(h: nat, mi: nat, sec: nat, ms: nat)
    requires h < Pow10(2) && mi < Pow10(2) && sec < Pow10(2) && ms < Pow10(3)
    ensures var u := TimePartText(h, mi, sec, ms, 14);
            && Field(u, 1, 2) == Some(h) && Field(u, 4, 2) == Some(mi)
            && Field(u, 7, 2) == Some(sec) && Field(u, 10, 3) == Some(ms)
            && u[0] == 'T' && u[3] == ':' && u[6] == ':' && u[9] == '.' && u[13] == 'Z'
  {
    var u := TimePartText(h, mi, sec, ms, 14);
    FieldOfPad(u, 1, h, 2);
    FieldOfPad(u, 4, mi, 2);
    FieldOfPad(u, 7, sec, 2);
    FieldOfPad(u, 10, ms, 3);
  }

  /** The date part of a written date ends where it was written to end:
      a time part starts `T` and has `:` at index 3, never `-`. */
  lemma DatePartEnds(y: nat, m: nat, d: nat, k: nat, u: string)
    requires k == 4 || k == 7 || k == 10
    requires |u| == 0 || (|u| >= 4 && u[0] == 'T' && u[3] == ':')
    ensures DatePartLength(DatePartText(y, m, d, k) + u) == k
  {
    var s := DatePartText(y, m, d, k) + u;
    if k == 4 && |u| > 0 {
      assert s[4] == u[0] && s[7] == u[3];
    } else if k == 7 && |u| > 0 {
      assert s[7] == u[0];
    }
  }

  /** `new Date(a) <= new Date(b)` on two date-input values holds exactly
      when day `a` is day `b` or precedes it in the calendar. */
  lemma DateInputOrder(a: DateTime, b: DateTime)
    requires Valid(a) && IsMidnight(a) && Valid(b) && IsMidnight(b)
    ensures NumLe(ParseDate(FormatDate(a)), ParseDate(FormatDate(b)))
            <==> a == b || Earlier(a, b)
  {
    ParseFormatDate(a);
    ParseFormatDate(b);
    TimeValueOrder(a, b);
  }
}

=== FILE: js_number.dfy ===
/** JavaScript's `parseInt(string, 10)`, on integers of unbounded size.

    The algorithm (section 19.2.5 of ECMAScript 2024) strips leading white
    space, reads an optional sign, then reads the longest run of decimal
    digits that follows; when that run is empty the result is NaN. Any
    text after the digits is ignored. */
module JsNumber {
  import opened Options

  /** White space and line terminators that `parseInt` skips at the start. */
  predicate IsJsWhitespace(c: char) {
    if c <= ' ' then c == ' ' || '\t' <= c <= '\r'
    else
      || c == '\U{A0}' || c == '\U{1680}' || '\U{2000}' <= c <= '\U{200A}'
      || c == '\U{2028}' || c == '\U{2029}' || c == '\U{202F}' || c == '\U{205F}'
      || c == '\U{3000}' || c == '\U{FEFF}'
  }

  predicate IsDigit(c: char) {
    '0' <= c <= '9'
  }

  predicate AllDigits(s: string) {
    forall i :: 0 <= i < |s| ==> IsDigit(s[i])
  }

  function DigitValue(c: char): (d: nat)
    requires IsDigit(c)
    ensures d < 10
  {
    (c as int) - ('0' as int)
  }

  function DigitChar(d: nat): (c: char)
    requires d < 10
    ensures IsDigit(c) && DigitValue(c) == d
  {
    (('0' as int) + d) as char
  }

  /** The value of a run of decimal digits, most significant first. */
  function DigitsValue(ds: string): nat
    requires AllDigits(ds)
  {
    if |ds| == 0 then 0 else DigitsValue(ds[..|ds| - 1]) * 10 + DigitValue(ds[|ds| - 1])
  }

  /** `s` with its leading white space removed. */
  function TrimStart(s: string): (r: string)
    ensures |r| <= |s| && r == s[|s| - |r|..]
    ensures forall i :: 0 <= i < |s| - |r| ==> IsJsWhitespace(s[i])
    ensures |r| == 0 || !IsJsWhitespace(r[0])
  {
    if |s| > 0 && IsJsWhitespace(s[0]) then TrimStart(s[1..]) else s
  }

  /** The longest prefix of `s` made of decimal digits. */
  function LeadingDigits(s: string): (r: string)
    ensures |r| <= |s| && r == s[..|r|]
    ensures AllDigits(r)
    ensures |r| == |s| || !IsDigit(s[|r|])
  {
    if |s| > 0 && IsDigit(s[0]) then [s[0]] + LeadingDigits(s[1..]) else []
  }

  /** `u` begins with a digit, or with a sign followed by a digit. */
  predicate StartsNumeral(u: string) {
    |u| > 0 && (IsDigit(u[0]) || ((u[0] == '-' || u[0] == '+') && |u| > 1 && IsDigit(u[1])))
  }

  /** `parseInt(s, 10)`; `None` is NaN. It is NaN exactly when what follows
      the leading white space does not begin a signed or unsigned numeral. */
  function ParseInt(s: string): (r: Option<int>)
    ensures r.None? <==> !StartsNumeral(TrimStart(s))
  {
    ParseSignedNaN(TrimStart(s));
    ParseSigned(TrimStart(s))
  }

  /** Text without a single digit, such as the empty string, is NaN. */
  lemma ParseIntNoDigits(s: string)
    requires forall i :: 0 <= i < |s| ==> !IsDigit(s[i])
    ensures ParseInt(s) == None
  {
    var u := TrimStart(s);
    if |u| > 0 {
      assert u[0] == s[|s| - |u|];
      assert |u| > 1 ==> u[1] == s[|s| - |u| + 1];
    }
  }

  lemma ParseSignedNaN(u: string)
    ensures ParseSigned(u).None? <==> !StartsNumeral(u)
  {
    if |u| > 0 && (u[0] == '-' || u[0] == '+') {
      ParseDigitsNaN(u[1..]);
      assert |u| > 1 ==> u[1..][0] == u[1];
    } else {
      ParseDigitsNaN(u);
    }
  }

  lemma ParseDigitsNaN(b: string)
    ensures ParseDigits(b).None? <==> !(|b| > 0 && IsDigit(b[0]))
  {
    var ds := LeadingDigits(b);
    if |ds| > 0 {
      assert b[0] == ds[0];
    }
  }

  /** The sign-and-digits step of `parseInt`, after white space is gone. */
  function ParseSigned(t: string): Option<int> {
    if |t| > 0 && t[0] == '-' then Negate(ParseDigits(t[1..]))
    else if |t| > 0 && t[0] == '+' then ParseDigits(t[1..])
    else ParseDigits(t)
  }

  function Negate(r: Option<int>): Option<int> {
    if r.None? then None else Some(-r.value)
  }

  /** The value of the leading digit run, NaN when there is none. */
  function ParseDigits(body: string): Option<int> {
    var ds := LeadingDigits(body);
    if |ds| == 0 then None else Some(DigitsValue(ds))
  }

  /** The shortest decimal numeral of `n`. */
  function NatDigits(n: nat): (r: string)
    ensures |r| > 0 && AllDigits(r)
  {
    if n < 10 then [DigitChar(n)] else NatDigits(n / 10) + [DigitChar(n % 10)]
  }

  /** The decimal numeral of `n`, with a `-` when it is negative. */
  function ShowInt(n: int): string {
    if n < 0 then "-" + NatDigits(-n) else NatDigits(n)
  }

  lemma {:induction false} DigitsValueOfNatDigits(n: nat)
    ensures DigitsValue(NatDigits(n)) == n
  {
    if n >= 10 {
      var ds := NatDigits(n);
      assert ds[..|ds| - 1] == NatDigits(n / 10);
      DigitsValueOfNatDigits(n / 10);
    }
  }

  /** The digit run of `ds + rest` is exactly `ds` when `rest` does not
      continue it. */
  lemma {:induction false} LeadingDigitsOfNumeral(ds: string, rest: string)
    requires AllDigits(ds)
    requires |rest| == 0 || !IsDigit(rest[0])
    ensures LeadingDigits(ds + rest) == ds
  {
    if |ds| > 0 {
      assert (ds + rest)[1..] == ds[1..] + rest;
      LeadingDigitsOfNumeral(ds[1..], rest);
    } else {
      assert ds + rest == rest;
    }
  }

  lemma {:induction false} TrimStartOfWhitespace(ws: string, t: string)
    requires forall i :: 0 <= i < |ws| ==> IsJsWhitespace(ws[i])
    requires |t| == 0 || !IsJsWhitespace(t[0])
    ensures TrimStart(ws + t) == t
  {
    if |ws| > 0 {
      assert (ws + t)[1..] == ws[1..] + t;
      TrimStartOfWhitespace(ws[1..], t);
    } else {
      assert ws + t == t;
    }
  }

  lemma ParseDigitsOfNumeral(ds: string, rest: string)
    requires |ds| > 0 && AllDigits(ds)
    requires |rest| == 0 || !IsDigit(rest[0])
    ensures ParseDigits(ds + rest) == Some(DigitsValue(ds))
  {
    LeadingDigitsOfNumeral(ds, rest);
  }

  lemma DropSign(ds: string, rest: string)
    ensures ("-" + ds + rest)[0] == '-'
    ensures ("-" + ds + rest)[1..] == ds + rest
  {
  }

  lemma DropPlus(ds: string, rest: string)
    ensures ("+" + ds + rest)[0] == '+'
    ensures ("+" + ds + rest)[1..] == ds + rest
  {
  }

  lemma ParseSignedNegative(ds: string, rest: string)
    requires |ds| > 0 && AllDigits(ds)
    requires |rest| == 0 || !IsDigit(rest[0])
    ensures ParseSigned("-" + ds + rest) == Negate(Some(DigitsValue(ds)))
  {
    DropSign(ds, rest);
    ParseDigitsOfNumeral(ds, rest);
  }

  lemma ParseSignedUnsigned(ds: string, rest: string)
    requires |ds| > 0 && AllDigits(ds)
    requires |rest| == 0 || !IsDigit(rest[0])
    ensures ParseSigned(ds + rest) == Some(DigitsValue(ds))
  {
    assert IsDigit((ds + rest)[0]);
    ParseDigitsOfNumeral(ds, rest);
  }

  lemma ParseSignedOfShowInt(n: int, rest: string)
    requires |rest| == 0 || !IsDigit(rest[0])
    ensures ParseSigned(ShowInt(n) + rest) == Some(n)
  {
    if n < 0 {
      ParseSignedOfNegative(n, rest);
    } else {
      ParseSignedOfNatural(n, rest);
    }
  }

  lemma ParseSignedOfNegative(n: int, rest: string)
    requires n < 0
    requires |rest| == 0 || !IsDigit(rest[0])
    ensures ParseSigned(ShowInt(n) + rest) == Some(n)
  {
    var ds := NatDigits(-n);
    assert ShowInt(n) == "-" + ds;
    DigitsValueOfNatDigits(-n);
    ParseSignedNegative(ds, rest);
    assert Negate(Some(DigitsValue(ds))) == Some(n);
  }

  lemma ParseSignedOfNatural(n: nat, rest: string)
    requires |rest| == 0 || !IsDigit(rest[0])
    ensures ParseSigned(ShowInt(n) + rest) == Some(n)
  {
    ParseSignedUnsigned(NatDigits(n), rest);
    DigitsValueOfNatDigits(n);
  }

  lemma ParseSignedPlus(ds: string, rest: string)
    requires |ds| > 0 && AllDigits(ds)
    requires |rest| == 0 || !IsDigit(rest[0])
    ensures ParseSigned("+" + ds + rest) == Some(DigitsValue(ds))
  {
    DropPlus(ds, rest);
    ParseDigitsOfNumeral(ds, rest);
  }

  /** The optional sign in front of a numeral. */
  datatype Sign = Unsigned | Plus | Minus

  function SignText(sg: Sign): string {
    match sg
    case Unsigned => ""
    case Plus => "+"
    case Minus => "-"
  }

  /** A value read after sign `sg`: negated after a `-`, kept otherwise. */
  function WithSign(sg: Sign, r: Option<int>): Option<int> {
    if sg == Minus then Negate(r) else r
  }

  /** `parseInt` reads any run of decimal digits, leading zeros included,
      with no sign, a `+` or a `-`, after white space and before a tail that
      does not continue the run. */
  lemma ParseIntReadsNumeral(ws: string, sg: Sign, ds: string, rest: string)
    requires forall i :: 0 <= i < |ws| ==> IsJsWhitespace(ws[i])
    requires |ds| > 0 && AllDigits(ds)
    requires |rest| == 0 || !IsDigit(rest[0])
    ensures ParseInt(ws + SignText(sg) + ds + rest) == WithSign(sg, Some(DigitsValue(ds)))
  {
    var t := SignText(sg) + ds + rest;
    NumeralStartsVisibly(sg, ds, rest);
    Regroup(ws, SignText(sg), ds, rest);
    TrimStartOfWhitespace(ws, t);
    ParseSignedNumeral(sg, ds, rest);
  }

  lemma Regroup(a: string, b: string, c: string, d: string)
    ensures a + b + c + d == a + (b + c + d)
  {
  }

  lemma NumeralStartsVisibly(sg: Sign, ds: string, rest: string)
    requires |ds| > 0 && AllDigits(ds)
    ensures |SignText(sg) + ds + rest| > 0 && !IsJsWhitespace((SignText(sg) + ds + rest)[0])
  {
    match sg
    case Unsigned =>
      assert (SignText(sg) + ds + rest)[0] == ds[0];
    case Plus =>
    case Minus =>
  }

  lemma ParseSignedNumeral(sg: Sign, ds: string, rest: string)
    requires |ds| > 0 && AllDigits(ds)
    requires |rest| == 0 || !IsDigit(rest[0])
    ensures ParseSigned(SignText(sg) + ds + rest) == WithSign(sg, Some(DigitsValue(ds)))
  {
    match sg
    case Minus => ParseSignedNegative(ds, rest);
    case Plus => ParseSignedPlus(ds, rest);
    case Unsigned =>
      assert SignText(sg) == [];
      assert [] + ds == ds;
      ParseSignedUnsigned(ds, rest);
  }

  /** `parseInt` reads back any integer written in decimal, whatever white
      space precedes it and whatever non-digit text follows it. */
  lemma ParseIntReadsShowInt(ws: string, n: int, rest: string)
    requires forall i :: 0 <= i < |ws| ==> IsJsWhitespace(ws[i])
    requires |rest| == 0 || !IsDigit(rest[0])
    ensures ParseInt(ws + ShowInt(n) + rest) == Some(n)
  {
    var t := ShowInt(n) + rest;
    assert t[0] == '-' || IsDigit(t[0]);
    assert ws + ShowInt(n) + rest == ws + t;
    TrimStartOfWhitespace(ws, t);
    ParseSignedOfShowInt(n, rest);
  }
}

=== FILE: mining_gate.dfy ===
/** The check `mineBlock` runs before it asks the remote service to mine:
    every pending transaction must pass `evaluateConditions`, or nothing is
    mined. */
module MiningGate {
  import opened Conditions

  datatype MineOutcome =
    | Refused(offending: seq<Transaction>)   // the alert; no remote call
    | MineRequested                          // the remote mine call is issued

  /** The pending transactions that fail `evaluateConditions`, in their order. */
  function Blocking(pending: seq<Transaction>, c: TriggerConditions): (r: seq<Transaction>)
    ensures |r| <= |pending|
    ensures forall t :: t in r ==> t in pending && !Evaluate(t, c)
    ensures forall i :: 0 <= i < |pending| && !Evaluate(pending[i], c) ==> pending[i] in r
  {
    if |pending| == 0 then []
    else
      var rest := Blocking(pending[1..], c);
      TailShift(pending);
      (if Evaluate(pending[0], c) then [] else [pending[0]]) + rest
  }

  lemma TailShift(s: seq<Transaction>)
    requires |s| > 0
    ensures forall i :: 1 <= i < |s| ==> s[i] == s[1..][i - 1]
  {
  }

  /** The filter keeps order: filtering a concatenation is concatenating
      the filtered parts. */
  lemma {:induction false} BlockingAppend(a: seq<Transaction>, b: seq<Transaction>, c: TriggerConditions)
    ensures Blocking(a + b, c) == Blocking(a, c) + Blocking(b, c)
  {
    if |a| > 0 {
      assert (a + b)[1..] == a[1..] + b;
      BlockingAppend(a[1..], b, c);
    } else {
      assert a + b == b;
    }
  }

  /** A single transaction is kept exactly when it fails. With
      `BlockingAppend` this pins `Blocking` down as the order-preserving
      filter. */
  lemma BlockingOne(t: Transaction, c: TriggerConditions)
    ensures Blocking([t], c) == if Evaluate(t, c) then [] else [t]
  {
    assert [t][1..] == [];
    assert Blocking([t][1..], c) == [];
  }

  /** The gate of `mineBlock`: all-or-nothing. */
  function MineBlock(pending: seq<Transaction>, c: TriggerConditions): (r: MineOutcome)
    ensures r == MineRequested <==> forall i :: 0 <= i < |pending| ==> Evaluate(pending[i], c)
    ensures r.Refused? ==> |r.offending| > 0 && forall t :: t in r.offending ==> t in pending && !Evaluate(t, c)
    ensures r.Refused? ==> r.offending == Blocking(pending, c)
    ensures |pending| == 0 ==> r == MineRequested
  {
    var invalid := Blocking(pending, c);
    if |invalid| > 0 then
      assert invalid[0] in invalid;
      Refused(invalid)
    else MineRequested
  }

  /** Mining a list is allowed exactly when mining each part of it is. In
      particular deleting a pending transaction never makes the gate refuse. */
  lemma GateSplits(a: seq<Transaction>, b: seq<Transaction>, c: TriggerConditions)
    ensures MineBlock(a + b, c) == MineRequested
            <==> MineBlock(a, c) == MineRequested && MineBlock(b, c) == MineRequested
  {
    BlockingAppend(a, b, c);
  }

  /** Filling in more thresholds never lets through a list the gate refused. */
  lemma GateAntitone(pending: seq<Transaction>, c: TriggerConditions, c': TriggerConditions)
    requires Tightens(c, c')
    ensures MineBlock(pending, c') == MineRequested ==> MineBlock(pending, c) == MineRequested
  {
    forall i | 0 <= i < |pending|
      ensures Evaluate(pending[i], c') ==> Evaluate(pending[i], c)
    {
      EvaluateAntitone(pending[i], c, c');
    }
  }
}

=== FILE: options.dfy ===
/** An optional value. In this model `None` stands for JavaScript's NaN
    (a failed `parseInt`) and for an Invalid Date. */
module Options {

  datatype Option<+T> = None | Some(value: T)

  /** `a <= b` on two JavaScript numbers that may be NaN: any comparison
      with NaN is false. */
  predicate NumLe(a: Option<int>, b: Option<int>) {
    a.Some? && b.Some? && a.value <= b.value
  }
}

=== FILE: scenarios.dfy ===
/** Worked examples of the rules on concrete inputs. */
module Scenarios {
  import opened Options
  import opened JsNumber
  import opened JsDate
  import opened Conditions
  import opened MiningGate

  const NewYear := DateTime(2024, 1, 1, 0, 0, 0, 0)
  const NewYearsEve := DateTime(2023, 12, 31, 0, 0, 0, 0)

  /** Quantity at least 10, temperature at most 5, delivery by 1 January
      2024, the date picked in a date input. */
  const Limits := TriggerConditions("10", "5", FormatDate(NewYear))

  /** A shipment of `quantity` units at 3 degrees, due on 31 December 2023. */
  function Shipment(quantity: string): Transaction {
    Transaction(None, "farm", "store", "milk", quantity, "depot", "Pending", "3", FormatDate(NewYearsEve))
  }

  lemma ReadsTen()
    ensures ParseInt("10") == Some(10)
  {
    TrimsNothing("10");
    assert LeadingDigits("10") == "10";
    assert DigitsValue("10") == 10;
  }

  lemma ReadsTwelve()
    ensures ParseInt("12") == Some(12)
  {
    TrimsNothing("12");
    assert LeadingDigits("12") == "12";
    assert DigitsValue("12") == 12;
  }

  lemma TrimsNothing(s: string)
    requires |s| > 0 && IsDigit(s[0])
    ensures TrimStart(s) == s
  {
    assert !IsJsWhitespace(s[0]);
  }

  lemma ReadsDigit(s: string)
    requires |s| == 1 && IsDigit(s[0])
    ensures ParseInt(s) == Some(DigitValue(s[0]))
  {
    TrimsNothing(s);
    DigitIsItsOwnRun(s);
    DigitRunValue(s);
  }

  lemma DigitIsItsOwnRun(s: string)
    requires |s| == 1 && IsDigit(s[0])
    ensures LeadingDigits(s) == s
  {
    assert s[1..] == "";
  }

  lemma DigitRunValue(s: string)
    requires |s| == 1 && IsDigit(s[0])
    ensures DigitsValue(s) == DigitValue(s[0])
  {
    assert s[..0] == "";
  }

  /** The limit is the date input's `2024-01-01`. */
  lemma WritesNewYear()
    ensures FormatDate(NewYear) == "2024-01-01"
  {
    PadsYear(2024, '4');
    PadsMonthOrDay(1, '0', '1');
    assert "2024" + "-" + "01" + "-" + "01" == "2024-01-01";
  }

  /** The shipment's due date is the date input's `2023-12-31`. */
  lemma WritesNewYearsEve()
    ensures FormatDate(NewYearsEve) == "2023-12-31"
  {
    PadsYear(2023, '3');
    PadsMonthOrDay(12, '1', '2');
    PadsMonthOrDay(31, '3', '1');
    assert "2023" + "-" + "12" + "-" + "31" == "2023-12-31";
  }

  /** A year of the 2020s, written in four digits. */
  lemma PadsYear(y: nat, last: char)
    requires 2020 <= y < 2030 && IsDigit(last) && DigitValue(last) == y - 2020
    ensures Pad(y, 4) == ['2', '0', '2', last]
  {
    assert Pad(2, 2) == ['0', '2'];
    assert Pad(20, 3) == ['0', '2', '0'];
    assert Pad(202, 4) == ['0', '2', '0', '2'];
    assert DigitChar(y % 10) == last;
  }

  lemma PadsMonthOrDay(v: nat, tens: char, units: char)
    requires v < 100 && IsDigit(tens) && IsDigit(units)
    requires DigitValue(tens) == v / 10 && DigitValue(units) == v % 10
    ensures Pad(v, 2) == [tens, units]
  {
    assert DigitChar(v / 10) == tens;
    assert DigitChar(v % 10) == units;
  }

  lemma ReadsDates()
    ensures NumLe(ParseDate(FormatDate(NewYearsEve)), ParseDate(FormatDate(NewYear)))
  {
    DateInputOrder(NewYearsEve, NewYear);
  }

  /** 12 units at 3 degrees delivered on 31 December 2023 pass. */
  lemma ShipmentWithinLimitsPasses()
    ensures Evaluate(Shipment("12"), Limits)
  {
    QuantityWithinLimit();
    TemperatureWithinLimit();
    DeliveryWithinLimit();
  }

  lemma QuantityWithinLimit()
    ensures Compare(Quantity, Shipment("12"), Limits)
  {
    ReadsTwelve();
    ReadsTen();
  }

  lemma TemperatureWithinLimit()
    ensures Compare(Temperature, Shipment("12"), Limits)
  {
    ReadsDigit("3");
    ReadsDigit("5");
  }

  lemma DeliveryWithinLimit()
    ensures Compare(DeliveryDate, Shipment("12"), Limits)
  {
    ReadsDates();
  }

  /** 8 units fail the quantity rule. */
  lemma ShortShipmentFails()
    ensures !Evaluate(Shipment("8"), Limits)
  {
    QuantityBelowLimit();
    assert InForce(Limits, Quantity);
  }

  lemma QuantityBelowLimit()
    ensures !Compare(Quantity, Shipment("8"), Limits)
  {
    ReadsTen();
    ReadsDigit("8");
  }

  /** A passing transaction followed by a failing one: mining is refused
      and the failing one alone is reported. */
  lemma GateReportsTheFailure(good: Transaction, bad: Transaction, c: TriggerConditions)
    requires Evaluate(good, c) && !Evaluate(bad, c)
    ensures MineBlock([good, bad], c) == Refused([bad])
  {
    BlockingOne(good, c);
    BlockingOne(bad, c);
    BlockingAppend([good], [bad], c);
    assert [good] + [bad] == [good, bad];
    assert Blocking([good, bad], c) == [bad];
  }

  /** The 12-unit and 8-unit shipments pending together: the 8-unit one
      blocks mining. */
  lemma GateReportsTheShortShipment()
    ensures MineBlock([Shipment("12"), Shipment("8")], Limits) == Refused([Shipment("8")])
  {
    ShipmentWithinLimitsPasses();
    ShortShipmentFails();
    GateReportsTheFailure(Shipment("12"), Shipment("8"), Limits);
  }
}
